=== FILE: README.md ===
# VDPAU output source pad — a Dafny model

This project models the output pad of the GStreamer VDPAU plugin
(`GstVdpOutputSrcPad`). The pad negotiates an output format with the
downstream element. The format is either raw RGB frames in host memory
(`video/x-raw-rgb`) or VDPAU output surfaces (`video/x-vdpau-output`). The
pad records the negotiated mode, RGBA format and frame geometry. It obtains
output buffers by one of two strategies, and pushes them downstream. In RGB
mode that means downloading the surface into a host buffer first. It also
keeps a cache of the caps it advertises, computed from the bound VDPAU device.

The pad is an immutable record (`OutputSrcPad.Pad`). Every operation is a
pure function from the pad and its collaborators' replies to a result. The
result holds the new pad, a flow status, the GError set (if any), and a
release log: the buffer handles the call unref'd, in order. Collaborators
come in two kinds:

- Deterministic library routines are abstract functions passed as
  parameters. These are `Caps.Algebra` (candidate output caps, fixation,
  RGBA format of raw caps), the caps a device allows, and the byte size of
  a downloaded surface.
- Replies of the downstream element and the device are plain values passed
  per call. These are the caps the linked peer reports (none when no peer
  is linked), whether `gst_pad_set_caps` accepts,
  the probe and allocation replies, the new surface handle, the download
  outcome and the push status.

Caps are finite sets of concrete structures `{name, rgba-format?, width?,
height?}`, and intersection is set intersection. As `gst_pad_get_allowed_caps`
does, negotiation intersects the peer's caps with the pad's own: the answer
of its caps query, which is the cache while a device is bound and the
template otherwise.

Modules:
- `Optional`, `Caps` (caps.dfy): nullable values, structures, caps, intersection, `gst_caps_set_simple` of the geometry.
- `Buffers` (buffers.dfy): handles, buffers, flow statuses, GErrors, the release-log ownership predicate.
- `OutputSrcPad` (output_src_pad.dfy): the pad record and every operation.
- `PadTrace` (pad_trace.dfy): runs of pad-changing calls and the invariants every run keeps.
- `PadProperties` (pad_properties.dfy): properties relating several calls.
- `Findings` (findings.dfy): `create_buffer` and `alloc_buffer` as written, with the double unref.

Negotiation is not atomic: a failed negotiation can leave the pad partly
updated. The code writes mode, RGBA format,
width and height as soon as it reads them. It commits the caps and stores the
decoder caps only at the end. So a failure after those writes, including a
refused `gst_pad_set_caps`, leaves them updated. `NegotiateRefusedCommitKeepsEagerWrites`
and `ModeCanContradictCommittedCaps` state the consequence.

## Model

| member | source | states |
|---|---|---|
| OutputSrcPad.NewPad | sys/vdpau/gstvdp/gstvdpoutputsrcpad.c:411-418 | A new pad has no committed caps, no decoder caps, no cache and no device, and keeps its template. |
| OutputSrcPad.RecordFormat | sys/vdpau/gstvdp/gstvdpoutputsrcpad.c:278-291 | A result is produced exactly when the structure is raw RGB with a readable format, or VDPAU output with an rgba-format field. Raw RGB then gives RGB mode with the format read from the caps, and VDPAU output gives VDPAU mode with its rgba-format field. Only mode and format are written. Any other case returns early with nothing written. |
| OutputSrcPad.AllowedCaps | sys/vdpau/gstvdp/gstvdpoutputsrcpad.c:257-263 | The allowed caps are absent exactly when no peer is linked. Otherwise they are the structures both the peer and the pad's own caps (its getcaps at :314-328) hold, and so lie within the cache while a device is bound. A pad without a cache or a template has ANY caps of its own, so its allowed caps are exactly the peer's. |
| OutputSrcPad.Negotiate | sys/vdpau/gstvdp/gstvdpoutputsrcpad.c:247-312 | No peer, empty own caps, empty allowed caps, or an empty intersection with the decoder's output caps fail with the pad unchanged. After fixation, an unreadable format fails before any write. A missing width fails with only mode and format written, and a missing height also with the width written. A refused set_caps fails with all four written. Committed caps and decoder caps change only on success, and then together. On success the committed caps are the fixated structure, and the mode matches its media type in both directions. The RGBA format is the one read from the raw caps, or the structure's rgba-format field. Width and height are its values. Only the negotiated fields ever change. |
| OutputSrcPad.CreateBuffer | sys/vdpau/gstvdp/gstvdpoutputsrcpad.c:123-180 | Corrected RGB-mode allocation. A received probe is released exactly once, and nothing else is released. A probe answered OK leaves its caps as the pad caps. A failed probe is not propagated and the old caps and geometry are kept. A probe without width or height gives ERROR with the invalid-caps error. A new geometry replaces width, height and the decoder caps' geometry; an equal one changes nothing. The surface has the stored format and geometry and carries the decoder caps. A failed surface allocation gives ERROR. |
| OutputSrcPad.AllocWithCaps | sys/vdpau/gstvdp/gstvdpoutputsrcpad.c:182-203 | A non-OK status from the peer is returned unchanged and nothing is released. A buffer that is not a VDPAU output buffer is released exactly once and gives ERROR with the wrong-type error. An OK reply holding a VDPAU output buffer gives OK with exactly that buffer, releasing nothing. The pad never changes. |
| OutputSrcPad.AllocBuffer | sys/vdpau/gstvdp/gstvdpoutputsrcpad.c:205-245 | Without committed caps it returns NOT_NEGOTIATED and touches nothing. Otherwise it dispatches on the mode, using the corrected create_buffer in RGB mode. A successful result is always a VDPAU output buffer. With the corrected step, only buffers received in the call are released, each once. The pad caps change only through a probe answered OK in RGB mode. |
| OutputSrcPad.Reshape | sys/vdpau/gstvdp/gstvdpoutputsrcpad.c:143-153 | The pad takes the new width and height. When they differ from the stored ones, the decoder caps get them too; equal ones change nothing. Nothing else changes. |
| OutputSrcPad.Push | sys/vdpau/gstvdp/gstvdpoutputsrcpad.c:69-121 | A non-output buffer gives ERROR and no caps gives NOT_NEGOTIATED, with nothing released either way. A failed RGB download releases the surface and the host buffer once each and reports the download's message. A successful download pushes a host buffer of the surface's byte size with the surface's flags and timestamps, releasing the surface once. VDPAU mode pushes the same buffer. Anything pushed carries the pad caps, and the peer's status is returned unmodified. |
| OutputSrcPad.GetCaps | sys/vdpau/gstvdp/gstvdpoutputsrcpad.c:314-328 | The answer is the cache while it is set, otherwise the template. It is NULL only when both are absent. |
| OutputSrcPad.UpdateCaps | sys/vdpau/gstvdp/gstvdpoutputsrcpad.c:355-371 | The cache becomes the device caps intersected with the template: a subset of both, holding every structure common to them. Without a template it is the device caps. Nothing else changes. |
| OutputSrcPad.SetDevice | sys/vdpau/gstvdp/gstvdpoutputsrcpad.c:390-408 | Binding a device sets the device and recomputes the cache from that device's caps. Nothing else changes. |
| OutputSrcPad.ActivatePush | sys/vdpau/gstvdp/gstvdpoutputsrcpad.c:330-346 | Both calls return TRUE. Activation changes nothing. Deactivation clears exactly the cache and the device. |
| Caps.WithGeometry | sys/vdpau/gstvdp/gstvdpoutputsrcpad.c:150-152 | Every structure gets the new width and height. Every original structure reappears with its geometry replaced, and every result structure is an original with only its geometry replaced. The media types are kept, and the caps are empty only if they were before. |
| Findings.CreateBufferAsWritten | sys/vdpau/gstvdp/gstvdpoutputsrcpad.c:158-178 | The code as written matches the corrected step whenever a surface is created or the probe lacks width or height. On the remaining failed-surface path it differs only in releasing the probe once more. |
| Findings.AllocBufferAsWritten | sys/vdpau/gstvdp/gstvdpoutputsrcpad.c:205-245 | alloc_buffer as written: in RGB mode it goes through the written create_buffer, and otherwise it equals the corrected step. |
| Findings.AllocBufferAsWrittenBreaksOwnership | sys/vdpau/gstvdp/gstvdpoutputsrcpad.c:218-226 | On a negotiated RGB pad whose surface allocation fails, the written alloc_buffer releases a buffer it does not own, or releases one twice. The corrected one does neither. |
| Findings.AsWrittenReleasesProbeTwice | sys/vdpau/gstvdp/gstvdpoutputsrcpad.c:135-175 | Take a received probe with valid geometry and a device that cannot allocate: the probe is released twice. |
| Findings.AsWrittenReleasesUnreceivedProbe | sys/vdpau/gstvdp/gstvdpoutputsrcpad.c:132-175 | When the probe request failed and the device cannot allocate, the written code releases a probe buffer the pad never received. |
| Findings.AsWrittenDoubleReleaseExample | sys/vdpau/gstvdp/gstvdpoutputsrcpad.c:155-175 | A new pad that has just negotiated 640x480 raw RGB, and a 640x480 probe, for which the written code logs [7, 7] and the corrected one [7]. The pad satisfies the run invariants. |
| PadTrace.NewPadConsistent | sys/vdpau/gstvdp/gstvdpoutputsrcpad.c:411-418 | A new pad satisfies the pad invariants. |
| PadTrace.ApplyKeepsConsistent | sys/vdpau/gstvdp/gstvdpoutputsrcpad.c:43-56 | Each negotiation, allocation, device binding or (de)activation keeps the invariants and the template. Committed caps imply decoder caps, and committed caps are one structure. The cache is set exactly while a device is bound, and it is that device's caps narrowed to the template. |
| PadTrace.RunKeepsConsistent | sys/vdpau/gstvdp/gstvdpoutputsrcpad.c:43-56 | Any sequence of those calls keeps the invariants and the template. |
| PadTrace.RunWithoutDeviceStepsKeepsCache | sys/vdpau/gstvdp/gstvdpoutputsrcpad.c:355-371 | Runs of negotiations and allocations never change the cache or the device; only the setter and deactivation do. |
| PadTrace.RunWithoutAcceptKeepsUnnegotiated | sys/vdpau/gstvdp/gstvdpoutputsrcpad.c:298-302 | A pad without caps stays without caps, and keeps its decoder caps, while every set_caps is refused. |
| PadProperties.NegotiateSucceedsIff | sys/vdpau/gstvdp/gstvdpoutputsrcpad.c:257-302 | Negotiation succeeds if and only if all of these hold: a peer is linked, the decoder's output caps meet the caps the pad and the peer both allow, the fixated structure has a known media type with its format, width and height, and set_caps accepts. |
| PadProperties.NegotiatedFormatIsCommon | sys/vdpau/gstvdp/gstvdpoutputsrcpad.c:257-275 | When fixation picks one of the structures it is given, the caps a successful negotiation commits are one structure that the decoder caps convert to, that the peer reports and that the pad offers itself; while a device is bound, its cache holds it. |
| PadProperties.NegotiateSingleCandidate | sys/vdpau/gstvdp/gstvdpoutputsrcpad.c:267-301 | When fixation picks one of the structures it is given and exactly one recordable candidate remains, an accepted negotiation succeeds and commits it, in the mode its media type names and at its width and height. |
| PadProperties.NegotiateFailsOnEmptyOwnCaps | sys/vdpau/gstvdp/gstvdpoutputsrcpad.c:257-263 | A pad whose caps query answers empty caps (a device that allows nothing, or an empty template) allows nothing, so negotiation fails and changes nothing. |
| PadProperties.TemplatelessPadAllowsPeerCaps | sys/vdpau/gstvdp/gstvdpoutputsrcpad.c:257-268 | A pad without a device and without a template allows exactly the peer's caps, so its candidates are the decoder's output caps that the peer reports. |
| PadProperties.NegotiateExitsBeforeWidth | sys/vdpau/gstvdp/gstvdpoutputsrcpad.c:279-294 | An unreadable or unknown format fails before any field is written, and a missing width fails with only mode and format written. |
| PadProperties.NegotiateRejectsUnknownFamily | sys/vdpau/gstvdp/gstvdpoutputsrcpad.c:278-291 | A fixated structure of any other media type fails with the pad untouched. |
| PadProperties.NegotiateRefusedCommitKeepsEagerWrites | sys/vdpau/gstvdp/gstvdpoutputsrcpad.c:279-302 | When set_caps refuses, negotiation fails. Mode, format, width and height hold the fixated values, while the committed caps and the decoder caps keep their old values. |
| PadProperties.NegotiateMissingHeightKeepsWidth | sys/vdpau/gstvdp/gstvdpoutputsrcpad.c:293-296 | A missing height fails after mode and width were already written. |
| PadProperties.ModeCanContradictCommittedCaps | sys/vdpau/gstvdp/gstvdpoutputsrcpad.c:279-302 | After a success in RGB, a refused VDPAU negotiation leaves VDPAU mode next to committed RGB caps. |
| PadProperties.NegotiateRawRgbScenario | sys/vdpau/gstvdp/gstvdpoutputsrcpad.c:257-301 | Raw RGB 640x480, on a pad whose template and peer both take it, gives RGB mode at 640x480. |
| PadProperties.UnnegotiatedPadRefusesBuffers | sys/vdpau/gstvdp/gstvdpoutputsrcpad.c:77-82 | Without committed caps, push (:81-82) and alloc_buffer (:214-216) both answer NOT_NEGOTIATED, release nothing and change nothing. |
| PadProperties.VdpauAllocThenPushPassesThrough | sys/vdpau/gstvdp/gstvdpoutputsrcpad.c:107-120 | In VDPAU mode the peer-allocated buffer is the buffer pushed. Nothing is released or downloaded, and the push status comes back. |
| PadProperties.RgbAllocThenPushReleasesSurfaceOnce | sys/vdpau/gstvdp/gstvdpoutputsrcpad.c:85-105 | In RGB mode the allocated surface is released exactly once by the following push, whether the download succeeds or not. A pushed host buffer has the byte size of the stored format and geometry. |
| PadProperties.ProbeGeometryReachesSurface | sys/vdpau/gstvdp/gstvdpoutputsrcpad.c:135-163 | A probe with a new width or a new height yields a surface of that geometry. The surface carries the decoder caps rewritten to it, and only the probe is released. |
| PadProperties.ProbeCapsTagPushedHostBuffer | sys/vdpau/gstvdp/gstvdpoutputsrcpad.c:132-133 | In RGB mode, after a probe answered OK, the probe buffer's caps are the pad caps. The host buffer pushed next carries them. |
| PadProperties.GetCapsAfterSetDevice | sys/vdpau/gstvdp/gstvdpoutputsrcpad.c:355-371 | After binding a device, the caps query answers the device caps narrowed to the template, a subset of both. |
| PadProperties.GetCapsAfterActivation | sys/vdpau/gstvdp/gstvdpoutputsrcpad.c:330-346 | After deactivation the caps query answers the template. Activation leaves the answer unchanged. |
| PadProperties.RebindingRecomputesCache | sys/vdpau/gstvdp/gstvdpoutputsrcpad.c:397-401 | Binding a second device gives the same pad as binding only that device, so no cache from the first survives. |

## Findings

| source | as written | input that shows it | evidently intended | confidence | as-written member | corrected member |
|---|---|---|---|---|---|---|
| sys/vdpau/gstvdp/gstvdpoutputsrcpad.c:174-178 | The `output_buf_error` path unrefs `neg_buf`. | Probe answered OK with width and height, then `gst_vdp_output_buffer_new` fails: `neg_buf` was already unref'd at :155, so it is unref'd twice. Probe answered non-OK, then the allocation fails: `neg_buf` was never handed to the pad. | The failed-surface path releases nothing, since the probe has been dealt with already. | not executed; follows from the control flow | Findings.CreateBufferAsWritten and Findings.AllocBufferAsWritten (exhibited by Findings.AsWrittenReleasesProbeTwice, Findings.AsWrittenReleasesUnreceivedProbe, Findings.AsWrittenDoubleReleaseExample, Findings.AllocBufferAsWrittenBreaksOwnership) | OutputSrcPad.CreateBuffer (ownership proved in its contract; used by OutputSrcPad.AllocBuffer) |

## Left out

- GObject boilerplate is not modelled: type registration, class and instance wiring, the `device` getter, the debug category and logging. `NewPad` models only the field values after construction.
- OutputSrcPad.AllocBuffer: its release-once contract describes the corrected create_buffer. The written code releases the probe a second time when surface allocation fails; see `Findings.AllocBufferAsWritten`.
- OutputSrcPad.CreateBuffer: the probe call `gst_pad_alloc_buffer_and_set_caps` belongs to the streaming runtime, which is not part of this model. The model takes from it only what the pad sees: a probe answered OK leaves the probe buffer's caps (one fixed structure) set on the pad. A refusal of those caps reaches the pad as a non-OK probe status.
- The caps library is not modelled: intersection of ranged or listed fields, `gst_vdp_video_to_output_caps`, fixation and `gst_vdp_caps_to_rgba_format` are abstract functions (`Caps.Algebra`). Structures are concrete records. Fixation is an abstract function from caps to one structure, which becomes the committed caps, since the code reads structure 0 of the fixated caps. That this structure is one of the caps given to it holds for fixed caps and is the hypothesis `Caps.FixateChooses` of the lemmas that need it; no other member relies on it.
- OutputSrcPad.Negotiate: the peer's caps query is a parameter, and ANY caps from the peer cannot be written as a finite set of structures. The pad's own ANY caps (a pad without a device and without a template, whose template-caps query answers ANY) are modelled as no restriction, in `OutputSrcPad.AllowedCaps`.
- Whether raw RGB decoder caps can meet a VDPAU-only peer depends on `gst_vdp_video_to_output_caps`, which is not part of this model.
- The VDPAU device is not modelled. Surface allocation (`gst_vdp_output_buffer_new`), `gst_vdp_output_buffer_calculate_size` and `gst_vdp_output_buffer_download` are replaced by parameters: a surface handle or failure, a size function, and a download outcome. Pixel contents are not modelled.
- Caps reference counting is not modelled; only buffer unrefs are logged. In particular, the stored copy of the decoder caps is overwritten on success (:299) without an unref, leaking the previous copy, and the model does not record that leak.
- The order of the probe release relative to the surface allocation is not recorded, since the release log holds only releases.
- `g_return_val_if_fail` checks on the pad object and on the caps argument are not modelled, because they are GObject type checks. The output-buffer check in push (:77) is modelled.
- OutputSrcPad.SetDevice: only a non-NULL device is bound. With a NULL device, `update_caps` calls the device caps query with NULL, and that code is not part of this model.
- `g_assert_not_reached` on an unknown mode cannot arise: `Mode` has exactly the two values.
- `gst_caps_set_simple` on a NULL decoder-caps pointer is modelled as a no-op. It cannot happen on a consistent pad, because committed caps imply decoder caps.
- Concurrency is not modelled. There is no locking around device binding, and the model is sequential.

=== FILE: buffers.dfy ===
/**
 Buffers as abstract handles, the flow statuses of the streaming runtime, the
 errors the pad reports, and the release log that records every unref the
 pad performs on a buffer.
 */
module Buffers {
  import opened Optional
  import opened Caps

  /** Identity of a buffer object. */
  type Handle = nat

  /** GstFlowReturn values. */
  datatype Flow = Ok | Resend | NotLinked | WrongState | Unexpected | NotNegotiated | Error | NotSupported

  /** The GError a failing call sets. */
  datatype Report =
    | InvalidCaps              // stream error: sink allocated a buffer with invalid caps
    | NoOutputBuffer           // resource error: no output surface could be created
    | WrongBufferType          // stream error: sink returned a buffer of the wrong type
    | DownloadFailed(message: string)

  /** What a buffer holds: a VDPAU output surface, or plain host memory. */
  datatype Payload =
    | Surface(rgba: RgbaFormat, width: int, height: int)
    | Host(size: nat)

  /** Flags and the fields copied with GST_BUFFER_COPY_TIMESTAMPS. */
  datatype Meta = Meta(flags: int, timestamp: int, duration: int, offset: int, offsetEnd: int)

  /** GST_CLOCK_TIME_NONE and GST_BUFFER_OFFSET_NONE. */
  const NoneValue: int := 0xFFFF_FFFF_FFFF_FFFF

  /** The metadata of a freshly allocated buffer. */
  const FreshMeta: Meta := Meta(0, NoneValue, NoneValue, NoneValue, NoneValue)

  datatype Buffer = Buffer(id: Handle, payload: Payload, caps: Option<Caps>, meta: Meta)
  {
    /** GST_IS_VDP_OUTPUT_BUFFER */
    predicate IsOutputBuffer()
    {
      payload.Surface?
    }
  }

  /** How many times `h` was released in `log`. */
  function Times(log: seq<Handle>, h: Handle): nat
  {
    multiset(log)[h]
  }

  /**
   The ownership discipline for one call: only buffers the call owned are
   released, and each of them at most once.
   */
  predicate ReleasesOwnedOnce(log: seq<Handle>, owned: set<Handle>)
  {
    forall h :: h in multiset(log) ==> h in owned && multiset(log)[h] == 1
  }
}

=== FILE: caps.dfy ===
/** The optional-value datatype used for every nullable pointer of the pad. */
module Optional {

  datatype Option<+T> = None | Some(value: T)
}

/**
 Capability descriptions ("caps") as the output pad sees them.

 A caps value is a finite set of concrete structures; intersection is set
 intersection. The caps library routines the pad calls but whose code is not
 part of this model (turning decoder caps into candidate output caps,
 fixation, reading an RGBA format out of raw caps) are bundled in `Algebra`
 as abstract, deterministic functions.
 */
module Caps {
  import opened Optional

  /** A VdpRGBAFormat enumeration value, kept abstract. */
  type RgbaFormat = int

  /** Media type of raw RGB frames in host memory. */
  const RawRgbName: string := "video/x-raw-rgb"

  /** Media type of VDPAU output surfaces. */
  const VdpauOutputName: string := "video/x-vdpau-output"

  /** One caps structure: a media type and the three fields the pad reads. */
  datatype Structure = Structure(
    name: string,
    rgba: Option<RgbaFormat>,   // the "rgba-format" field
    width: Option<int>,
    height: Option<int>)

  type Caps = set<Structure>

  /** The caps routines of other libraries the negotiation calls. */
  datatype Algebra = Algebra(
    toOutput: Caps -> Caps,                   // gst_vdp_video_to_output_caps
    fixate: Caps -> Structure,                // gst_pad_fixate_caps, then structure 0
    rgbaOf: Structure -> Option<RgbaFormat>)  // gst_vdp_caps_to_rgba_format

  /**
   Fixation picks one of the structures it is given: the runtime keeps the
   first structure of non-empty caps and only narrows its fields. Fields
   left open are not modelled, so this is the behaviour for fixed caps.
   */
  ghost predicate FixateChooses(alg: Algebra)
  {
    forall c: Caps :: c != {} ==> alg.fixate(c) in c
  }

  /** gst_caps_intersect on concrete structures. */
  function Intersect(a: Caps, b: Caps): (r: Caps)
    ensures r <= a && r <= b
    ensures forall s :: s in a && s in b ==> s in r
  {
    a * b
  }

  /** A structure with its geometry replaced. */
  function Regeometry(s: Structure, w: int, h: int): Structure
  {
    s.(width := Some(w), height := Some(h))
  }

  /**
   gst_caps_set_simple (caps, "width", w, "height", h): every structure
   gets the new geometry; media type and format are kept.
   */
  function WithGeometry(c: Caps, w: int, h: int): (r: Caps)
    ensures forall s :: s in r ==> s.width == Some(w) && s.height == Some(h)
    ensures forall t :: t in c ==> Regeometry(t, w, h) in r
    ensures forall s :: s in r ==> exists t :: t in c && s == Regeometry(t, w, h)
    ensures (set s | s in r :: s.name) == (set t | t in c :: t.name)
    ensures r == {} <==> c == {}
  {
    var r := set t | t in c :: Regeometry(t, w, h);
    assert forall s :: s in r ==> exists t :: t in c && s == Regeometry(t, w, h);
    r
  }
}

=== FILE: findings.dfy ===
/**
 RGB-mode allocation exactly as the code is written, for comparison with
 `OutputSrcPad.CreateBuffer` and `OutputSrcPad.AllocBuffer`. On the path where no output surface can be
 created, the written code also unrefs the probe buffer; the probe was
 already unref'd after its geometry was read when it was received, and was
 never received at all when the probe request failed.
 */
module Findings {
  import opened Optional
  import opened Caps
  import opened Buffers
  import opened OutputSrcPad
  import PadTrace

  /** create_buffer with the extra unref of the probe on the failed-surface path. */
  function CreateBufferAsWritten(pad: Pad, probe: ProbeReply, surface: Option<Handle>): (r: Allocation)
    // identical to the corrected step except in the released buffers of one path
    ensures r.(released := []) == CreateBuffer(pad, probe, surface).(released := [])
    ensures surface.None? && !(probe.status == Ok && (probe.caps.width.None? || probe.caps.height.None?)) ==>
      r.released == CreateBuffer(pad, probe, surface).released + [probe.buf]
    ensures surface.Some? || (probe.status == Ok && (probe.caps.width.None? || probe.caps.height.None?)) ==>
      r == CreateBuffer(pad, probe, surface)
  {
    if probe.status == Ok && (probe.caps.width.None? || probe.caps.height.None?) then
      Allocation(Error, pad.(committed := Some({probe.caps})), None, [probe.buf], Some(InvalidCaps))
    else
      var p := if probe.status == Ok
        then Reshape(pad.(committed := Some({probe.caps})), probe.caps.width.value, probe.caps.height.value)
        else pad;
      var released := if probe.status == Ok then [probe.buf] else [];
      match surface
      case None => Allocation(Error, p, None, released + [probe.buf], Some(NoOutputBuffer))
      case Some(h) =>
        Allocation(Ok, p, Some(Buffer(h, Surface(p.rgba, p.width, p.height), p.inputCaps, FreshMeta)), released, None)
  }

  /** alloc_buffer as written: RGB mode goes through the written create_buffer. */
  function AllocBufferAsWritten(pad: Pad, probe: ProbeReply, surface: Option<Handle>, reply: ConsumerReply): (r: Allocation)
    ensures pad.committed.None? || pad.mode == Vdpau ==> r == AllocBuffer(pad, probe, surface, reply)
    ensures pad.committed.Some? && pad.mode == Rgb ==> r == CreateBufferAsWritten(pad, probe, surface)
  {
    if pad.committed.None? then
      Allocation(NotNegotiated, pad, None, [], None)
    else
      match pad.mode
      case Rgb => CreateBufferAsWritten(pad, probe, surface)
      case Vdpau => AllocWithCaps(pad, reply)
  }

  /**
   On a negotiated RGB pad, a written alloc_buffer whose surface allocation
   fails breaks the ownership discipline the corrected one keeps.
   */
  lemma AllocBufferAsWrittenBreaksOwnership(pad: Pad, probe: ProbeReply, reply: ConsumerReply)
    requires pad.committed.Some? && pad.mode == Rgb
    requires probe.status != Ok || (probe.caps.width.Some? && probe.caps.height.Some?)
    ensures !ReleasesOwnedOnce(AllocBufferAsWritten(pad, probe, None, reply).released, AllocOwned(pad, probe, reply))
    ensures ReleasesOwnedOnce(AllocBuffer(pad, probe, None, reply).released, AllocOwned(pad, probe, reply))
  {
    if probe.status == Ok {
      AsWrittenReleasesProbeTwice(pad, probe);
    } else {
      AsWrittenReleasesUnreceivedProbe(pad, probe);
    }
  }

  /** A received probe with valid geometry is released twice when no surface can be created. */
  lemma AsWrittenReleasesProbeTwice(pad: Pad, probe: ProbeReply)
    requires probe.status == Ok && probe.caps.width.Some? && probe.caps.height.Some?
    ensures Times(CreateBufferAsWritten(pad, probe, None).released, probe.buf) == 2
    ensures !ReleasesOwnedOnce(CreateBufferAsWritten(pad, probe, None).released, ProbeOwned(probe))
  {
    var log := CreateBufferAsWritten(pad, probe, None).released;
    assert log == [probe.buf, probe.buf];
    assert Times(log, probe.buf) == 2;
  }

  /** After a failed probe request, a buffer the pad never received is released. */
  lemma AsWrittenReleasesUnreceivedProbe(pad: Pad, probe: ProbeReply)
    requires probe.status != Ok
    ensures probe.buf in CreateBufferAsWritten(pad, probe, None).released
    ensures probe.buf !in ProbeOwned(probe)
    ensures !ReleasesOwnedOnce(CreateBufferAsWritten(pad, probe, None).released, ProbeOwned(probe))
  {
    var log := CreateBufferAsWritten(pad, probe, None).released;
    assert log == [probe.buf];
    assert probe.buf in log;
  }

  /**
   A concrete input: a new pad that has just negotiated 640x480 raw RGB, a
   640x480 probe answered with OK, and a device that cannot allocate.
   */
  lemma AsWrittenDoubleReleaseExample()
    ensures
      var rgb := Structure(RawRgbName, None, Some(640), Some(480));
      var n := Negotiate(NewPad(Some({rgb})), Algebra(c => c, c => rgb, s => Some(0)), {rgb}, Some({rgb}), true);
      var probe := ProbeReply(Ok, 7, rgb);
      && n.ok && n.pad.committed == Some({rgb}) && n.pad.mode == Rgb
      && PadTrace.Consistent(n.pad, d => {})
      && CreateBufferAsWritten(n.pad, probe, None).released == [7, 7]
      && CreateBuffer(n.pad, probe, None).released == [7]
  {
  }
}

=== FILE: output_src_pad.dfy ===
/**
 The VDPAU output source pad: the record of its fields and every operation
 on it as a pure step function. Calls into the streaming runtime, the caps
 library and the VDPAU device are parameters: abstract functions for the
 deterministic library routines, plain values for the replies of the
 downstream element and the device allocator.
 */
module OutputSrcPad {
  import opened Optional
  import opened Caps
  import opened Buffers

  /** The two output formats the pad can negotiate. */
  datatype Mode = Rgb | Vdpau

  /** A bound GstVdpDevice, kept abstract. */
  type Device = nat

  /** The fields of the pad the core reads and writes. */
  datatype Pad = Pad(
    committed: Option<Caps>,   // the caps set on the pad (GST_PAD_CAPS)
    cache: Option<Caps>,       // the caps the pad advertises while a device is bound
    inputCaps: Option<Caps>,   // copy of the decoder caps of the last successful negotiation
    mode: Mode,
    rgba: RgbaFormat,
    width: int,
    height: int,
    device: Option<Device>,
    template: Option<Caps>)    // caps of the pad template, fixed at creation

  /** A new pad: zero-filled fields, nothing cached, no device bound. */
  function NewPad(template: Option<Caps>): (p: Pad)
    ensures p.committed.None? && p.inputCaps.None?
    ensures p.cache.None? && p.device.None?
    ensures p.template == template
  {
    Pad(None, None, None, Rgb, 0, 0, 0, None, template)
  }

  // ---------------------------------------------------------------------
  // Negotiation
  // ---------------------------------------------------------------------

  datatype Negotiation = Negotiation(ok: bool, pad: Pad)

  /**
   The caps the link allows (gst_pad_get_allowed_caps): None when no peer
   is linked (`peerCaps` is None), otherwise the pad's own caps (its caps
   query) intersected with the caps the peer reports. A pad with neither a
   cache nor a template answers the runtime's template caps there, which
   are ANY, so the peer's caps are allowed unchanged.
   */
  function AllowedCaps(pad: Pad, peerCaps: Option<Caps>): (r: Option<Caps>)
    ensures r.None? <==> peerCaps.None?
    ensures r.Some? ==> r.value <= peerCaps.value
    ensures r.Some? && GetCaps(pad).None? ==> r == peerCaps
    ensures r.Some? && GetCaps(pad).Some? ==>
      && r.value <= GetCaps(pad).value
      && forall s :: s in peerCaps.value && s in GetCaps(pad).value ==> s in r.value
    // while a device is bound, only what its cache advertises is allowed
    ensures r.Some? && pad.cache.Some? ==> r.value <= pad.cache.value
  {
    match peerCaps
    case None => None
    case Some(p) =>
      match GetCaps(pad)
      case None => Some(p)
      case Some(own) => Some(Intersect(own, p))
  }

  /** The candidate output caps for the decoder caps that the link allows, when a peer reports `peerCaps`. */
  function Candidates(pad: Pad, alg: Algebra, videoCaps: Caps, peerCaps: Caps): Caps
  {
    Intersect(alg.toOutput(videoCaps), AllowedCaps(pad, Some(peerCaps)).value)
  }

  /**
   Reads the output mode and RGBA format from the fixated structure.
   `None` stands for the early FALSE return, taken before anything is written.
   */
  function RecordFormat(pad: Pad, alg: Algebra, s: Structure): (r: Option<Pad>)
    ensures r.Some? ==> r.value == pad.(mode := r.value.mode, rgba := r.value.rgba)
    ensures r.Some? ==> (r.value.mode == Rgb <==> s.name == RawRgbName)
    ensures r.Some? ==> (r.value.mode == Vdpau <==> s.name == VdpauOutputName)
    ensures r.Some? && r.value.mode == Rgb ==> alg.rgbaOf(s) == Some(r.value.rgba)
    ensures r.Some? && r.value.mode == Vdpau ==> s.rgba == Some(r.value.rgba)
    ensures r.Some? <==> (s.name == RawRgbName && alg.rgbaOf(s).Some?) || (s.name == VdpauOutputName && s.rgba.Some?)
  {
    if s.name == RawRgbName then
      match alg.rgbaOf(s)
      case None => None
      case Some(f) => Some(pad.(rgba := f, mode := Rgb))
    else if s.name == VdpauOutputName then
      match s.rgba
      case None => None
      case Some(f) => Some(pad.(rgba := f, mode := Vdpau))
    else
      None
  }

  /**
   Negotiates the output format with the downstream element.

   `peerCaps` is what the linked peer reports (None when no peer is linked);
   the caps the link allows are those intersected with the pad's own caps.
   `accepted` is whether setting the fixated caps on the pad succeeds. As in
   the code, mode, format, width and height are written as soon as they are
   read, so a later failure leaves them updated while the committed caps and
   the stored decoder caps stay as they were.
   */
  function Negotiate(pad: Pad, alg: Algebra, videoCaps: Caps, peerCaps: Option<Caps>, accepted: bool): (r: Negotiation)
    // only the negotiated fields can change
    ensures r.pad == pad.(mode := r.pad.mode, rgba := r.pad.rgba, width := r.pad.width,
                          height := r.pad.height, committed := r.pad.committed, inputCaps := r.pad.inputCaps)
    // the caps and the decoder caps change only together, on success
    ensures !r.ok ==> r.pad.committed == pad.committed && r.pad.inputCaps == pad.inputCaps
    // no peer, empty own caps, nothing allowed, or nothing in common: nothing changes
    ensures peerCaps.None? || GetCaps(pad) == Some({}) ==> !r.ok && r.pad == pad
    ensures AllowedCaps(pad, peerCaps) == Some({}) ==> !r.ok && r.pad == pad
    ensures peerCaps.Some? && Candidates(pad, alg, videoCaps, peerCaps.value) == {} ==> !r.ok && r.pad == pad
    ensures r.ok ==> accepted && peerCaps.Some? && Candidates(pad, alg, videoCaps, peerCaps.value) != {}
    // the exits after fixation: an unreadable format writes nothing, a missing width
    // leaves mode and format written, a missing height or a refused commit also the width
    ensures peerCaps.Some? && Candidates(pad, alg, videoCaps, peerCaps.value) != {} ==>
      var s := alg.fixate(Candidates(pad, alg, videoCaps, peerCaps.value));
      var rec := RecordFormat(pad, alg, s);
      && (rec.None? ==> !r.ok && r.pad == pad)
      && (rec.Some? && s.width.None? ==> !r.ok && r.pad == rec.value)
      && (rec.Some? && s.width.Some? && s.height.None? ==> !r.ok && r.pad == rec.value.(width := s.width.value))
      && (rec.Some? && s.width.Some? && s.height.Some? && !accepted ==>
            !r.ok && r.pad == rec.value.(width := s.width.value, height := s.height.value))
    ensures r.ok ==>
      var s := alg.fixate(Candidates(pad, alg, videoCaps, peerCaps.value));
      && r.pad.committed == Some({s})
      && r.pad.inputCaps == Some(videoCaps)
      && (r.pad.mode == Rgb <==> s.name == RawRgbName)
      && (r.pad.mode == Vdpau <==> s.name == VdpauOutputName)
      && (s.name == RawRgbName ==> alg.rgbaOf(s) == Some(r.pad.rgba))
      && (s.name == VdpauOutputName ==> s.rgba == Some(r.pad.rgba))
      && s.width == Some(r.pad.width) && s.height == Some(r.pad.height)
  {
    var allowed := AllowedCaps(pad, peerCaps);
    if allowed.None? || allowed.value == {} then
      Negotiation(false, pad)
    else
      var src := Intersect(alg.toOutput(videoCaps), allowed.value);
      if src == {} then
        Negotiation(false, pad)
      else
        var s := alg.fixate(src);
        match RecordFormat(pad, alg, s)
        case None => Negotiation(false, pad)
        case Some(p1) =>
          if s.width.None? then
            Negotiation(false, p1)
          else
            var p2 := p1.(width := s.width.value);
            if s.height.None? then
              Negotiation(false, p2)
            else
              var p3 := p2.(height := s.height.value);
              if accepted then
                Negotiation(true, p3.(committed := Some({s}), inputCaps := Some(videoCaps)))
              else
                Negotiation(false, p3)
  }

  // ---------------------------------------------------------------------
  // Buffer allocation
  // ---------------------------------------------------------------------

  /** Status, buffer and GError of an allocation, the pad after it, and the buffers it released. */
  datatype Allocation = Allocation(status: Flow, pad: Pad, buf: Option<Buffer>, released: seq<Handle>, report: Option<Report>)

  /**
   Reply of the downstream element to the geometry probe: status, the
   buffer, and the caps of that buffer, which are fixed and so one structure.
   */
  datatype ProbeReply = ProbeReply(status: Flow, buf: Handle, caps: Structure)

  /** Reply of the downstream element to a buffer request. */
  datatype ConsumerReply = ConsumerReply(status: Flow, buf: Buffer)

  /** The buffers a create_buffer call receives and may therefore release. */
  function ProbeOwned(probe: ProbeReply): set<Handle>
  {
    if probe.status == Ok then {probe.buf} else {}
  }

  /** Takes over a new geometry: width, height, and the width/height of the stored decoder caps. */
  function Reshape(pad: Pad, w: int, h: int): (r: Pad)
    ensures r.width == w && r.height == h
    ensures r == pad.(width := w, height := h, inputCaps := r.inputCaps)
    ensures w == pad.width && h == pad.height ==> r == pad
    ensures r.inputCaps.Some? <==> pad.inputCaps.Some?
    ensures pad.inputCaps.Some? && (w != pad.width || h != pad.height) ==>
      r.inputCaps.value == WithGeometry(pad.inputCaps.value, w, h)
  {
    if w != pad.width || h != pad.height then
      var input := match pad.inputCaps
        case None => None
        case Some(c) => Some(WithGeometry(c, w, h));
      pad.(width := w, height := h, inputCaps := input)
    else
      pad
  }

  /**
   RGB-mode allocation. A probe buffer is requested from the downstream
   element with the pad caps, to learn its geometry, and released; then an
   output surface of the stored format and geometry is allocated from the
   device (`surface` is its handle, None when allocation fails) and tagged
   with the stored decoder caps.
   */
  function CreateBuffer(pad: Pad, probe: ProbeReply, surface: Option<Handle>): (r: Allocation)
    // ownership: the probe is released exactly once when received, nothing else is released
    ensures ReleasesOwnedOnce(r.released, ProbeOwned(probe))
    ensures probe.status == Ok ==> Times(r.released, probe.buf) == 1
    ensures r.status in {Ok, Error}
    ensures r.status == Ok <==> r.buf.Some?
    // only the caps, the geometry and the decoder caps can change
    ensures r.pad == pad.(committed := r.pad.committed, width := r.pad.width, height := r.pad.height,
                          inputCaps := r.pad.inputCaps)
    // a probe answered OK leaves its caps on the pad (the runtime's allocate-and-set-caps call sets them)
    ensures probe.status == Ok ==> r.pad.committed == Some({probe.caps})
    // a failed probe is not propagated: the old caps and geometry are kept
    ensures probe.status != Ok ==> r.pad == pad && (r.status == Ok <==> surface.Some?)
    // a probe without geometry is an error
    ensures probe.status == Ok && (probe.caps.width.None? || probe.caps.height.None?) ==>
      r.status == Error && r.report == Some(InvalidCaps) && r.pad == pad.(committed := Some({probe.caps}))
    // a probe with geometry: the pad takes it over
    ensures probe.status == Ok && probe.caps.width.Some? && probe.caps.height.Some? ==>
      var (w, h) := (probe.caps.width.value, probe.caps.height.value);
      && r.pad.width == w && r.pad.height == h
      && (w == pad.width && h == pad.height ==> r.pad == pad.(committed := Some({probe.caps})))
      && (pad.inputCaps.Some? ==> r.pad.inputCaps.Some?)
      && (pad.inputCaps.Some? && (w != pad.width || h != pad.height) ==>
            r.pad.inputCaps == Some(WithGeometry(pad.inputCaps.value, w, h)))
      && (r.status == Ok <==> surface.Some?)
    // the output surface has the stored format and geometry and the decoder caps
    ensures r.buf.Some? ==>
      r.buf.value == Buffer(surface.value, Surface(r.pad.rgba, r.pad.width, r.pad.height), r.pad.inputCaps, FreshMeta)
    ensures r.status == Error && r.report != Some(InvalidCaps) ==> surface.None? && r.report == Some(NoOutputBuffer)
  {
    if probe.status == Ok && (probe.caps.width.None? || probe.caps.height.None?) then
      Allocation(Error, pad.(committed := Some({probe.caps})), None, [probe.buf], Some(InvalidCaps))
    else
      var p := if probe.status == Ok
        then Reshape(pad.(committed := Some({probe.caps})), probe.caps.width.value, probe.caps.height.value)
        else pad;
      var released := if probe.status == Ok then [probe.buf] else [];
      match surface
      case None => Allocation(Error, p, None, released, Some(NoOutputBuffer))
      case Some(h) =>
        Allocation(Ok, p, Some(Buffer(h, Surface(p.rgba, p.width, p.height), p.inputCaps, FreshMeta)), released, None)
  }

  /**
   VDPAU-mode allocation: the downstream element allocates with the pad caps
   and its buffer is type-checked.
   */
  function AllocWithCaps(pad: Pad, reply: ConsumerReply): (r: Allocation)
    ensures r.pad == pad
    ensures reply.status != Ok ==> r.status == reply.status && r.buf.None? && r.released == []
    ensures r.status == Ok ==> r.buf == Some(reply.buf) && reply.buf.IsOutputBuffer() && r.released == []
    ensures reply.status == Ok && reply.buf.IsOutputBuffer() ==> r == Allocation(Ok, pad, Some(reply.buf), [], None)
    ensures reply.status == Ok && !reply.buf.IsOutputBuffer() ==>
      && r.status == Error && r.buf.None? && r.report == Some(WrongBufferType)
      && ReleasesOwnedOnce(r.released, {reply.buf.id}) && Times(r.released, reply.buf.id) == 1
  {
    if reply.status != Ok then
      Allocation(reply.status, pad, None, [], None)
    else if !reply.buf.IsOutputBuffer() then
      Allocation(Error, pad, None, [reply.buf.id], Some(WrongBufferType))
    else
      Allocation(Ok, pad, Some(reply.buf), [], None)
  }

  /** The buffers an alloc_buffer call receives from the downstream element. */
  function AllocOwned(pad: Pad, probe: ProbeReply, reply: ConsumerReply): set<Handle>
  {
    if pad.mode == Rgb then ProbeOwned(probe)
    else if reply.status == Ok then {reply.buf.id}
    else {}
  }

  /** Allocates an output buffer by the strategy of the negotiated mode. */
  function AllocBuffer(pad: Pad, probe: ProbeReply, surface: Option<Handle>, reply: ConsumerReply): (r: Allocation)
    ensures pad.committed.None? ==>
      r.status == NotNegotiated && r.pad == pad && r.buf.None? && r.released == []
    ensures r.status == Ok ==> r.buf.Some? && r.buf.value.IsOutputBuffer()
    ensures ReleasesOwnedOnce(r.released, AllocOwned(pad, probe, reply))
    ensures pad.mode == Vdpau ==> r.pad == pad
    ensures r.pad.mode == pad.mode && r.pad.rgba == pad.rgba
    // the caps change only by a probe answered OK in RGB mode
    ensures r.pad.committed.Some? <==> pad.committed.Some?
    ensures r.pad.committed == pad.committed
         || (pad.committed.Some? && pad.mode == Rgb && probe.status == Ok && r.pad.committed == Some({probe.caps}))
    ensures pad.committed.Some? && pad.mode == Rgb ==> r == CreateBuffer(pad, probe, surface)
    ensures pad.committed.Some? && pad.mode == Vdpau ==> r == AllocWithCaps(pad, reply)
  {
    if pad.committed.None? then
      Allocation(NotNegotiated, pad, None, [], None)
    else
      match pad.mode
      case Rgb => CreateBuffer(pad, probe, surface)
      case Vdpau => AllocWithCaps(pad, reply)
  }

  // ---------------------------------------------------------------------
  // Push
  // ---------------------------------------------------------------------

  /** Outcome of the device-to-host download. */
  datatype DownloadReply = Downloaded | DownloadError(message: string)

  /** Status and GError of a push, the buffer handed downstream, and the buffers released. */
  datatype Pushing = Pushing(status: Flow, pushed: Option<Buffer>, released: seq<Handle>, report: Option<Report>)

  /**
   Pushes an output buffer downstream. In RGB mode the surface is downloaded
   into a new host buffer (handle `host`, of the size `sizeOf` gives for the
   surface) and that host buffer is pushed; in VDPAU mode the surface itself
   is pushed. `downstream` is the status the peer returns for the push.
   */
  function Push(pad: Pad, buf: Buffer, sizeOf: Payload -> nat, host: Handle,
                download: DownloadReply, downstream: Flow): (r: Pushing)
    ensures !buf.IsOutputBuffer() ==> r.status == Error && r.pushed.None? && r.released == []
    ensures buf.IsOutputBuffer() && pad.committed.None? ==>
      r.status == NotNegotiated && r.pushed.None? && r.released == []
    // whatever is pushed carries the pad caps, and the peer's status comes back unmodified
    ensures r.pushed.Some? ==> pad.committed.Some? && r.pushed.value.caps == pad.committed && r.status == downstream
    ensures r.pushed.None? ==> r.status in {Error, NotNegotiated}
    ensures pad.committed.Some? && buf.IsOutputBuffer() && pad.mode == Vdpau ==>
      r.pushed == Some(buf.(caps := pad.committed)) && r.released == []
    ensures pad.committed.Some? && buf.IsOutputBuffer() && pad.mode == Rgb && download.DownloadError? ==>
      && r.status == Error && r.pushed.None? && r.report == Some(DownloadFailed(download.message))
      && buf.id in r.released && host in r.released
      && (host != buf.id ==> ReleasesOwnedOnce(r.released, {buf.id, host}))
    ensures pad.committed.Some? && buf.IsOutputBuffer() && pad.mode == Rgb && download.Downloaded? ==>
      && r.pushed.Some?
      && r.pushed.value.id == host
      && r.pushed.value.payload == Host(sizeOf(buf.payload))
      && r.pushed.value.meta == buf.meta
      && Times(r.released, buf.id) == 1
      && (host != buf.id ==> ReleasesOwnedOnce(r.released, {buf.id}))
  {
    if !buf.IsOutputBuffer() then
      Pushing(Error, None, [], None)
    else if pad.committed.None? then
      Pushing(NotNegotiated, None, [], None)
    else
      match pad.mode
      case Rgb =>
        var out := Buffer(host, Host(sizeOf(buf.payload)), pad.committed, FreshMeta);
        if download.DownloadError? then
          Pushing(Error, None, [buf.id, host], Some(DownloadFailed(download.message)))
        else
          var copied := out.(meta := CopyFlagsAndTimestamps(out.meta, buf.meta));
          Pushing(downstream, Some(copied.(caps := pad.committed)), [buf.id], None)
      case Vdpau =>
        Pushing(downstream, Some(buf.(caps := pad.committed)), [], None)
  }

  /** gst_buffer_copy_metadata with GST_BUFFER_COPY_FLAGS | GST_BUFFER_COPY_TIMESTAMPS. */
  function CopyFlagsAndTimestamps(dest: Meta, src: Meta): Meta
  {
    dest.(flags := src.flags, timestamp := src.timestamp, duration := src.duration,
          offset := src.offset, offsetEnd := src.offsetEnd)
  }

  // ---------------------------------------------------------------------
  // Caps cache and device
  // ---------------------------------------------------------------------

  /** The caps a device allows, narrowed to the template when the pad has one. */
  function Advertised(deviceCaps: Caps, template: Option<Caps>): Caps
  {
    match template
    case None => deviceCaps
    case Some(t) => Intersect(deviceCaps, t)
  }

  /** Caps query: the cache while it is set, otherwise the template (None without one). */
  function GetCaps(pad: Pad): (r: Option<Caps>)
    ensures r.None? ==> pad.cache.None? && pad.template.None?
    ensures pad.cache.Some? ==> r == pad.cache
    ensures pad.cache.None? ==> r == pad.template
  {
    if pad.cache.Some? then pad.cache else pad.template
  }

  /** Recomputes the cache from the caps the bound device allows. */
  function UpdateCaps(pad: Pad, deviceCaps: Caps): (r: Pad)
    ensures r == pad.(cache := r.cache)
    ensures r.cache.Some? && r.cache.value <= deviceCaps
    ensures pad.template.Some? ==>
      r.cache.value <= pad.template.value
      && forall s :: s in deviceCaps && s in pad.template.value ==> s in r.cache.value
    ensures pad.template.None? ==> r.cache.value == deviceCaps
  {
    pad.(cache := Some(Advertised(deviceCaps, pad.template)))
  }

  /** The device property setter: binds the device and recomputes the cache from it. */
  function SetDevice(pad: Pad, dev: Device, deviceCaps: Device -> Caps): (r: Pad)
    ensures r == pad.(device := Some(dev), cache := r.cache)
    ensures r.cache == Some(Advertised(deviceCaps(dev), pad.template))
  {
    UpdateCaps(pad.(device := Some(dev)), deviceCaps(dev))
  }

  /** Result of a push-mode (de)activation and the pad after it. */
  datatype Activation = Activation(ok: bool, pad: Pad)

  /** Push-mode (de)activation: deactivation drops the cache and the device; both succeed. */
  function ActivatePush(pad: Pad, active: bool): (r: Activation)
    ensures r.ok
    ensures active ==> r.pad == pad
    ensures !active ==> r.pad == pad.(cache := None, device := None)
  {
    if active then Activation(true, pad) else Activation(true, pad.(cache := None, device := None))
  }
}

=== FILE: pad_properties.dfy ===
/**
 Properties of the pad that relate several calls, or an operation to the
 conditions under which it succeeds.
 */
module PadProperties {
  import opened Optional
  import opened Caps
  import opened Buffers
  import opened OutputSrcPad

  // ---------------------------------------------------------------------
  // Negotiation
  // ---------------------------------------------------------------------

  /** The fixated structure can be recorded: a known media type with its RGBA format and full geometry. */
  predicate Recordable(alg: Algebra, s: Structure)
  {
    && (s.name == RawRgbName ==> alg.rgbaOf(s).Some?)
    && (s.name == VdpauOutputName ==> s.rgba.Some?)
    && (s.name == RawRgbName || s.name == VdpauOutputName)
    && s.width.Some? && s.height.Some?
  }

  /** Negotiation succeeds exactly when a peer allows something in common, the fixated caps can be recorded, and the caps are accepted. */
  lemma NegotiateSucceedsIff(pad: Pad, alg: Algebra, videoCaps: Caps, peerCaps: Option<Caps>, accepted: bool)
    ensures Negotiate(pad, alg, videoCaps, peerCaps, accepted).ok <==>
      && peerCaps.Some?
      && Candidates(pad, alg, videoCaps, peerCaps.value) != {}
      && Recordable(alg, alg.fixate(Candidates(pad, alg, videoCaps, peerCaps.value)))
      && accepted
  {
  }

  /**
   With a fixation that picks one of the structures it is given, the caps
   committed by a successful negotiation are one structure that the decoder
   caps convert to, that the peer reports, and that the pad's caps query
   offers: while a device is bound, one its cache advertises.
   */
  lemma NegotiatedFormatIsCommon(pad: Pad, alg: Algebra, videoCaps: Caps, peerCaps: Option<Caps>, accepted: bool)
    requires FixateChooses(alg)
    ensures
      var r := Negotiate(pad, alg, videoCaps, peerCaps, accepted);
      r.ok ==> exists s ::
        && r.pad.committed == Some({s})
        && s in alg.toOutput(videoCaps)
        && s in peerCaps.value
        && (GetCaps(pad).Some? ==> s in GetCaps(pad).value)
        && (pad.cache.Some? ==> s in pad.cache.value)
  {
  }

  /**
   With a fixation that picks one of the structures it is given, a single
   recordable candidate is what an accepted negotiation commits, in the mode
   its media type names and at its geometry.
   */
  lemma NegotiateSingleCandidate(pad: Pad, alg: Algebra, videoCaps: Caps, peerCaps: Caps, s: Structure)
    requires FixateChooses(alg)
    requires Candidates(pad, alg, videoCaps, peerCaps) == {s}
    requires Recordable(alg, s)
    ensures
      var r := Negotiate(pad, alg, videoCaps, Some(peerCaps), true);
      && r.ok && r.pad.committed == Some({s}) && r.pad.inputCaps == Some(videoCaps)
      && (r.pad.mode == Rgb <==> s.name == RawRgbName)
      && Some(r.pad.width) == s.width && Some(r.pad.height) == s.height
  {
  }

  /** A pad whose caps query answers empty caps (a device allowing nothing, or an empty template) cannot negotiate. */
  lemma NegotiateFailsOnEmptyOwnCaps(pad: Pad, alg: Algebra, videoCaps: Caps, peerCaps: Option<Caps>, accepted: bool)
    requires GetCaps(pad) == Some({})
    ensures !Negotiate(pad, alg, videoCaps, peerCaps, accepted).ok
    ensures Negotiate(pad, alg, videoCaps, peerCaps, accepted).pad == pad
  {
  }

  /**
   A pad with neither a device nor a template restricts nothing: its
   candidates are the decoder's output caps that the peer reports.
   */
  lemma TemplatelessPadAllowsPeerCaps(pad: Pad, alg: Algebra, videoCaps: Caps, peerCaps: Caps)
    requires pad.cache.None? && pad.template.None?
    ensures AllowedCaps(pad, Some(peerCaps)) == Some(peerCaps)
    ensures Candidates(pad, alg, videoCaps, peerCaps) == Intersect(alg.toOutput(videoCaps), peerCaps)
  {
  }

  /**
   The exits after fixation, each with the fields written before it: an
   unreadable format returns before any write, and a missing width returns
   with only mode and format written.
   */
  lemma NegotiateExitsBeforeWidth(pad: Pad, alg: Algebra, videoCaps: Caps, peerCaps: Caps, accepted: bool)
    requires Candidates(pad, alg, videoCaps, peerCaps) != {}
    ensures
      var s := alg.fixate(Candidates(pad, alg, videoCaps, peerCaps));
      var r := Negotiate(pad, alg, videoCaps, Some(peerCaps), accepted);
      && (RecordFormat(pad, alg, s).None? ==> !r.ok && r.pad == pad)
      && (RecordFormat(pad, alg, s).Some? && s.width.None? ==>
            !r.ok && r.pad == RecordFormat(pad, alg, s).value
            && r.pad.width == pad.width && r.pad.height == pad.height)
  {
  }

  /** A fixated structure of an unknown media type makes negotiation fail with the pad untouched. */
  lemma NegotiateRejectsUnknownFamily(pad: Pad, alg: Algebra, videoCaps: Caps, peerCaps: Caps, accepted: bool)
    requires Candidates(pad, alg, videoCaps, peerCaps) != {}
    requires
      var s := alg.fixate(Candidates(pad, alg, videoCaps, peerCaps));
      s.name != RawRgbName && s.name != VdpauOutputName
    ensures !Negotiate(pad, alg, videoCaps, Some(peerCaps), accepted).ok
    ensures Negotiate(pad, alg, videoCaps, Some(peerCaps), accepted).pad == pad
  {
  }

  /**
   When the pad refuses the fixated caps, negotiation fails, yet mode,
   format, width and height already hold the fixated values, while the
   committed caps and the decoder caps keep their old values.
   */
  lemma NegotiateRefusedCommitKeepsEagerWrites(pad: Pad, alg: Algebra, videoCaps: Caps, peerCaps: Caps)
    requires Candidates(pad, alg, videoCaps, peerCaps) != {}
    requires Recordable(alg, alg.fixate(Candidates(pad, alg, videoCaps, peerCaps)))
    ensures
      var s := alg.fixate(Candidates(pad, alg, videoCaps, peerCaps));
      var r := Negotiate(pad, alg, videoCaps, Some(peerCaps), false);
      && !r.ok
      && r.pad.committed == pad.committed && r.pad.inputCaps == pad.inputCaps
      && (r.pad.mode == Rgb <==> s.name == RawRgbName)
      && Some(r.pad.width) == s.width && Some(r.pad.height) == s.height
      && (s.name == RawRgbName ==> alg.rgbaOf(s) == Some(r.pad.rgba))
      && (s.name == VdpauOutputName ==> s.rgba == Some(r.pad.rgba))
  {
  }

  /** A fixated structure without a height fails after mode, format and width were written. */
  lemma NegotiateMissingHeightKeepsWidth(pad: Pad, alg: Algebra, videoCaps: Caps, peerCaps: Caps, accepted: bool)
    requires Candidates(pad, alg, videoCaps, peerCaps) != {}
    requires
      var s := alg.fixate(Candidates(pad, alg, videoCaps, peerCaps));
      && (s.name == RawRgbName ==> alg.rgbaOf(s).Some?)
      && (s.name == VdpauOutputName ==> s.rgba.Some?)
      && (s.name == RawRgbName || s.name == VdpauOutputName)
      && s.width.Some? && s.height.None?
    ensures
      var s := alg.fixate(Candidates(pad, alg, videoCaps, peerCaps));
      var r := Negotiate(pad, alg, videoCaps, Some(peerCaps), accepted);
      && !r.ok
      && Some(r.pad.width) == s.width && r.pad.height == pad.height
      && (r.pad.mode == Vdpau <==> s.name == VdpauOutputName)
  {
  }

  /**
   After a successful negotiation followed by one whose commit is refused,
   the recorded mode can contradict the caps still committed on the pad.
   The pad's template offers both media types.
   */
  lemma ModeCanContradictCommittedCaps()
    ensures
      var rgb := Structure(RawRgbName, None, Some(640), Some(480));
      var vdp := Structure(VdpauOutputName, Some(0), Some(640), Some(480));
      var alg := Algebra(c => c, c => if rgb in c then rgb else vdp, s => Some(0));
      var p1 := Negotiate(NewPad(Some({rgb, vdp})), alg, {rgb}, Some({rgb}), true);
      var p2 := Negotiate(p1.pad, alg, {vdp}, Some({vdp}), false);
      && p1.ok && p1.pad.mode == Rgb && p1.pad.committed == Some({rgb})
      && !p2.ok && p2.pad.committed == Some({rgb}) && p2.pad.mode == Vdpau
  {
    var rgb := Structure(RawRgbName, None, Some(640), Some(480));
    var vdp := Structure(VdpauOutputName, Some(0), Some(640), Some(480));
    assert {rgb, vdp} * {rgb} == {rgb};
    assert {rgb, vdp} * {vdp} == {vdp};
    assert {rgb} * {rgb} == {rgb};
    assert {vdp} * {vdp} == {vdp};
    assert rgb !in {vdp};
  }

  /** Raw RGB decoder caps of 640x480, a pad template and a peer that take raw RGB: RGB mode at 640x480. */
  lemma NegotiateRawRgbScenario()
    ensures
      var rgb := Structure(RawRgbName, None, Some(640), Some(480));
      var alg := Algebra(c => c, c => rgb, s => Some(3));
      var r := Negotiate(NewPad(Some({rgb})), alg, {rgb}, Some({rgb}), true);
      && r.ok && r.pad.mode == Rgb && r.pad.width == 640 && r.pad.height == 480 && r.pad.rgba == 3
  {
    var rgb := Structure(RawRgbName, None, Some(640), Some(480));
    assert {rgb} * {rgb} == {rgb};
  }

  // ---------------------------------------------------------------------
  // Buffer exchange
  // ---------------------------------------------------------------------

  /** Without committed caps both allocation and push answer NOT_NEGOTIATED, and nothing is touched. */
  lemma UnnegotiatedPadRefusesBuffers(pad: Pad, probe: ProbeReply, surface: Option<Handle>, reply: ConsumerReply,
                                      buf: Buffer, sizeOf: Payload -> nat, host: Handle, download: DownloadReply, downstream: Flow)
    requires pad.committed.None?
    requires buf.IsOutputBuffer()
    ensures AllocBuffer(pad, probe, surface, reply) == Allocation(NotNegotiated, pad, None, [], None)
    ensures Push(pad, buf, sizeOf, host, download, downstream) == Pushing(NotNegotiated, None, [], None)
  {
  }

  /**
   VDPAU mode: the buffer the peer allocates is exactly the buffer pushed,
   nothing is allocated by the pad, nothing is released, nothing is downloaded.
   */
  lemma VdpauAllocThenPushPassesThrough(pad: Pad, probe: ProbeReply, surface: Option<Handle>, reply: ConsumerReply,
                                        sizeOf: Payload -> nat, host: Handle, download: DownloadReply, downstream: Flow)
    requires pad.committed.Some? && pad.mode == Vdpau
    requires reply.status == Ok && reply.buf.IsOutputBuffer()
    ensures
      var a := AllocBuffer(pad, probe, surface, reply);
      var p := Push(a.pad, a.buf.value, sizeOf, host, download, downstream);
      && a.status == Ok && a.buf == Some(reply.buf) && a.released == [] && a.pad == pad
      && p.pushed == Some(reply.buf.(caps := pad.committed)) && p.released == [] && p.status == downstream
  {
  }

  /**
   RGB mode: a surface from a successful allocation is released exactly once
   by the push that follows, whether the download succeeds or not, and a
   pushed host buffer has the byte size of the stored format and geometry.
   */
  lemma RgbAllocThenPushReleasesSurfaceOnce(pad: Pad, probe: ProbeReply, surface: Option<Handle>, reply: ConsumerReply,
                                            sizeOf: Payload -> nat, host: Handle, download: DownloadReply, downstream: Flow)
    requires pad.committed.Some? && pad.mode == Rgb
    requires AllocBuffer(pad, probe, surface, reply).status == Ok
    requires host != surface.value
    ensures
      var a := AllocBuffer(pad, probe, surface, reply);
      var p := Push(a.pad, a.buf.value, sizeOf, host, download, downstream);
      && a.buf.value.id == surface.value
      && Times(p.released, surface.value) == 1
      && (download.Downloaded? ==>
            p.pushed.Some? && p.pushed.value.payload == Host(sizeOf(Surface(a.pad.rgba, a.pad.width, a.pad.height))))
      && (download.DownloadError? ==> Times(p.released, host) == 1 && p.status == Error)
  {
    var a := AllocBuffer(pad, probe, surface, reply);
    assert a == CreateBuffer(pad, probe, surface);
  }

  /**
   A probe that reports a new geometry changes the stored geometry, and the
   surface then allocated has that geometry and carries the decoder caps
   rewritten to it.
   */
  lemma ProbeGeometryReachesSurface(pad: Pad, probe: ProbeReply, h: Handle, reply: ConsumerReply)
    requires pad.committed.Some? && pad.mode == Rgb && pad.inputCaps.Some?
    requires probe.status == Ok && probe.caps.width.Some? && probe.caps.height.Some?
    requires probe.caps.width.value != pad.width || probe.caps.height.value != pad.height
    ensures
      var (w, ht) := (probe.caps.width.value, probe.caps.height.value);
      var a := AllocBuffer(pad, probe, Some(h), reply);
      && a.status == Ok && a.pad.width == w && a.pad.height == ht
      && a.buf.value.payload == Surface(pad.rgba, w, ht)
      && a.buf.value.caps == Some(WithGeometry(pad.inputCaps.value, w, ht))
      && a.released == [probe.buf]
  {
  }

  /**
   RGB mode: the caps a probe answered OK leaves on the pad are the caps the
   following push stamps on the host buffer.
   */
  lemma ProbeCapsTagPushedHostBuffer(pad: Pad, probe: ProbeReply, surface: Option<Handle>, reply: ConsumerReply,
                                     sizeOf: Payload -> nat, host: Handle, downstream: Flow)
    requires pad.committed.Some? && pad.mode == Rgb && probe.status == Ok
    requires AllocBuffer(pad, probe, surface, reply).status == Ok
    ensures
      var a := AllocBuffer(pad, probe, surface, reply);
      var p := Push(a.pad, a.buf.value, sizeOf, host, Downloaded, downstream);
      && a.pad.committed == Some({probe.caps})
      && p.pushed.Some? && p.pushed.value.caps == Some({probe.caps})
  {
  }

  // ---------------------------------------------------------------------
  // Caps cache and device
  // ---------------------------------------------------------------------

  /** After a device is bound the caps query answers the device caps narrowed to the template. */
  lemma GetCapsAfterSetDevice(pad: Pad, dev: Device, deviceCaps: Device -> Caps)
    ensures GetCaps(SetDevice(pad, dev, deviceCaps)) == Some(Advertised(deviceCaps(dev), pad.template))
    ensures pad.template.Some? ==> GetCaps(SetDevice(pad, dev, deviceCaps)).value <= pad.template.value
    ensures GetCaps(SetDevice(pad, dev, deviceCaps)).value <= deviceCaps(dev)
  {
  }

  /** After deactivation the caps query falls back to the template; activation changes no answer. */
  lemma GetCapsAfterActivation(pad: Pad)
    ensures GetCaps(ActivatePush(pad, false).pad) == pad.template
    ensures GetCaps(ActivatePush(pad, true).pad) == GetCaps(pad)
  {
  }

  /** Binding a second device replaces the cache computed for the first: it is never stale. */
  lemma RebindingRecomputesCache(pad: Pad, d1: Device, d2: Device, deviceCaps: Device -> Caps)
    ensures SetDevice(SetDevice(pad, d1, deviceCaps), d2, deviceCaps) == SetDevice(pad, d2, deviceCaps)
  {
  }
}

=== FILE: pad_trace.dfy ===
/**
 Runs of the operations that change the pad, and the invariants every run
 keeps: caps are committed only together with the decoder caps they were
 negotiated from, the committed caps are one fixated structure, and the
 cache is set exactly while a device is bound, computed from that device.
 */
module PadTrace {
  import opened Optional
  import opened Caps
  import opened Buffers
  import opened OutputSrcPad

  /** One call into the pad, together with the replies its collaborators give. */
  datatype Step =
    | NegotiateStep(videoCaps: Caps, peerCaps: Option<Caps>, accepted: bool)
    | AllocStep(probe: ProbeReply, surface: Option<Handle>, reply: ConsumerReply)
    | SetDeviceStep(dev: Device)
    | ActivateStep(active: bool)

  /** The pad after one step. Push reads the pad but never changes it. */
  function Apply(pad: Pad, alg: Algebra, deviceCaps: Device -> Caps, step: Step): Pad
  {
    match step
    case NegotiateStep(v, peer, acc) => Negotiate(pad, alg, v, peer, acc).pad
    case AllocStep(probe, surface, reply) => AllocBuffer(pad, probe, surface, reply).pad
    case SetDeviceStep(dev) => SetDevice(pad, dev, deviceCaps)
    case ActivateStep(active) => ActivatePush(pad, active).pad
  }

  /** The pad after a sequence of steps. */
  function Run(pad: Pad, alg: Algebra, deviceCaps: Device -> Caps, steps: seq<Step>): Pad
    decreases |steps|
  {
    if steps == [] then pad
    else Run(Apply(pad, alg, deviceCaps, steps[0]), alg, deviceCaps, steps[1..])
  }

  /** The invariants of the pad record, for a fixed device-caps query. */
  predicate Consistent(pad: Pad, deviceCaps: Device -> Caps)
  {
    && (pad.committed.Some? ==> pad.inputCaps.Some? && |pad.committed.value| == 1)
    && (pad.cache.Some? <==> pad.device.Some?)
    && (pad.device.Some? ==> pad.cache == Some(Advertised(deviceCaps(pad.device.value), pad.template)))
  }

  /** A new pad is consistent. */
  lemma NewPadConsistent(template: Option<Caps>, deviceCaps: Device -> Caps)
    ensures Consistent(NewPad(template), deviceCaps)
  {
  }

  /** Every single step keeps the invariants and the template. */
  lemma ApplyKeepsConsistent(pad: Pad, alg: Algebra, deviceCaps: Device -> Caps, step: Step)
    requires Consistent(pad, deviceCaps)
    ensures Consistent(Apply(pad, alg, deviceCaps, step), deviceCaps)
    ensures Apply(pad, alg, deviceCaps, step).template == pad.template
  {
  }

  /** Every run keeps the invariants and the template. */
  lemma {:induction false} RunKeepsConsistent(pad: Pad, alg: Algebra, deviceCaps: Device -> Caps, steps: seq<Step>)
    requires Consistent(pad, deviceCaps)
    ensures Consistent(Run(pad, alg, deviceCaps, steps), deviceCaps)
    ensures Run(pad, alg, deviceCaps, steps).template == pad.template
    decreases |steps|
  {
    if steps != [] {
      ApplyKeepsConsistent(pad, alg, deviceCaps, steps[0]);
      RunKeepsConsistent(Apply(pad, alg, deviceCaps, steps[0]), alg, deviceCaps, steps[1..]);
    }
  }

  /** Negotiation and allocation never touch the device binding or the cache. */
  lemma {:induction false} RunWithoutDeviceStepsKeepsCache(pad: Pad, alg: Algebra, deviceCaps: Device -> Caps, steps: seq<Step>)
    requires forall i :: 0 <= i < |steps| ==> steps[i].NegotiateStep? || steps[i].AllocStep?
    ensures Run(pad, alg, deviceCaps, steps).cache == pad.cache
    ensures Run(pad, alg, deviceCaps, steps).device == pad.device
    decreases |steps|
  {
    if steps != [] {
      var next := Apply(pad, alg, deviceCaps, steps[0]);
      assert next.cache == pad.cache && next.device == pad.device;
      RunWithoutDeviceStepsKeepsCache(next, alg, deviceCaps, steps[1..]);
    }
  }

  /** A pad without caps stays without caps, and keeps its decoder caps, while every commit is refused. */
  lemma {:induction false} RunWithoutAcceptKeepsUnnegotiated(pad: Pad, alg: Algebra, deviceCaps: Device -> Caps, steps: seq<Step>)
    requires pad.committed.None?
    requires forall i :: 0 <= i < |steps| && steps[i].NegotiateStep? ==> !steps[i].accepted
    ensures Run(pad, alg, deviceCaps, steps).committed.None?
    ensures Run(pad, alg, deviceCaps, steps).inputCaps == pad.inputCaps
    decreases |steps|
  {
    if steps != [] {
      var next := Apply(pad, alg, deviceCaps, steps[0]);
      assert next.committed.None? && next.inputCaps == pad.inputCaps;
      RunWithoutAcceptKeepsUnnegotiated(next, alg, deviceCaps, steps[1..]);
    }
  }
}
